=== FILE: README.md ===
# Transaction utilities of the traceability dashboard, in Dafny

The dashboard's only self-contained logic lives in its `Utils` class
(`src/Utils.ts`). This project models four parts of it and proves what they
promise:

- **`validateKeys`**, a recursive evaluator of key-presence rules
  (`$and`, `$or`, `$not`, string leaves) over a JavaScript object
  (module `KeyRules`, on the JavaScript values of module `JsValues`);
- **`getABIEvent`**, the filter that picks named events out of a contract
  ABI (module `AbiEvents`);
- the **gas budget and transaction assembly** of `sendTransaction`: gas limit
  twice the node's estimate, gas price fixed at 9 500 000 000 wei, chain id
  80001, and the balance check made before anything is signed (module
  `GasBudget`);
- **`waitForTransactionReceipt`**, the receipt-polling state machine, with
  the timer replaced by the sequence of answers its callbacks receive
  (module `ReceiptPolling`), and the whole `sendTransaction` →
  `sendRawTransaction` run composed from the pieces, with the node's answers
  and the signer as inputs and the run's effects recorded in order
  (module `TransactionRun`).

`Wrappers` holds the `Option` and `Result` types used throughout.

Behaviour of the code a reader might not expect:

- a receipt query that errors rejects the promise at once; it does not use
  up one try and carry on;
- a receipt's execution status is never read, so a mined but reverted
  transaction resolves like a successful one; there is no separate
  "reverted" outcome;
- with `_tries = 30` at most 31 answers are consumed: each unsuccessful
  answer while `tries > 0` decrements it, and the answer that finds it at 0
  rejects with that answer (`undefined` or the non-matching receipt); the
  timer keeps sending queries every second until then, so more queries than
  answers may go out;
- a receipt in block 0 does not confirm, because the code checks `blockNumber` for
  truthiness;
- the gas limit is `Math.round(estimate * 2)`, which on the integer
  estimate is exactly twice it; the refusal happens when `balance < cost`.

The rule evaluator is modelled on arbitrary JavaScript values, so its error
paths are the code's: `Object.keys` of `null`/`undefined` raises a
TypeError; a rule whose first key is other than `$not` and whose value is
not a non-empty array throws 'invalid rule'; a string used as a whole rule has first key `"0"` holding a
one-character string, so `{$not: 'k'}` throws rather than testing that `k`
is absent (`{$not: {$and: ['k']}}` is the working form); an operator other
than `$and`/`$or` maps its children and then fails in `reduce` because
`reducers[op]` is undefined. Every child is evaluated before the fold, so a
child's error propagates even when an earlier child already decided the
result.

## Model

| member | source | states |
|---|---|---|
| KeyRules.ValidateKeys | src/Utils.ts:131-148 | The evaluator on any JavaScript value: it returns a result only for an object whose first key is `$not`, `$and` or `$or`; `null`/`undefined`, strings, numbers, booleans, arrays and any other first key always throw |
| KeyRules.ApplyOperator | src/Utils.ts:137-147 | A non-`$not` operator whose operand is not a non-empty array throws 'invalid rule'; a result needs `$and` or `$or` and every child evaluated without error, and is then the conjunction (`$and`) or disjunction (`$or`) of the children's values |
| KeyRules.EvaluateChild | src/Utils.ts:142-145 | A string child evaluates to whether that key is present; any other child that yields a result is a rule object |
| KeyRules.ValidateKeysMeaning | src/Utils.ts:131-148 | A rule written with `$and`/`$or`/`$not` and keys evaluates to its quantifier meaning (all children hold / some child holds / the child fails / the key is present) exactly when it is well formed, and throws 'invalid rule' exactly when it is not |
| KeyRules.ReduceConjIsAll | src/Utils.ts:132-147 | Folding the children's results with `acc && val` from the seed gives the seed and every result, so `$and` from seed `true` is their conjunction |
| KeyRules.ReduceDisjIsAny | src/Utils.ts:132-147 | Folding with logical or gives the seed or some result, so `$or` from seed `false` is their disjunction |
| KeyRules.FirstFailure | src/Utils.ts:140-146 | The completed `map` yields all children's values exactly when none throws; otherwise the error of the first child that throws |
| KeyRules.DoubleNegation | src/Utils.ts:138-139 | `{$not: {$not: r}}` gives the same result as `r`, errors included |
| KeyRules.NotOfKeyThrows | src/Utils.ts:136-139 | A key directly under `$not` is evaluated as a whole rule and throws 'invalid rule' whatever the object holds |
| KeyRules.OnlyFirstKeyCounts | src/Utils.ts:136 | Keys of a rule object after the first one never affect the result |
| KeyRules.OperandMustBeNonEmptyArray | src/Utils.ts:137 | Any operator other than `$not` whose operand is not a non-empty array throws 'invalid rule' |
| KeyRules.ChildErrorPropagates | src/Utils.ts:140-147 | The first child that throws decides the result, even after a child that already settled the `$and`/`$or` (no short-circuit) |
| KeyRules.UnknownOperatorThrows | src/Utils.ts:132-147 | An operator without a reducer throws once all its children evaluated without error |
| KeyRules.FalsyValuesArePresent | src/Utils.ts:143-144 | A key holding `0`, `''` or `false` satisfies a leaf; one holding `null` or `undefined` does not |
| AbiEvents.GetAbiEvent | src/Utils.ts:97-98 | An entry is in the result exactly when it is in the ABI, is of type 'event' and its name is among the given names; the result is no longer than the ABI |
| AbiEvents.GetAbiEventIsSubsequence | src/Utils.ts:97-98 | The selected entries appear in the ABI's order |
| AbiEvents.GetAbiEventCounts | src/Utils.ts:97-98 | Each selected entry occurs as often as in the ABI; every other entry occurs zero times |
| AbiEvents.GetAbiEventAppend | src/Utils.ts:97-98 | Selecting from a concatenation is concatenating the selections |
| AbiEvents.GetAbiEventIdempotent | src/Utils.ts:97-98 | Selecting twice with the same names is selecting once |
| AbiEvents.DefaultSelectsNothing | src/Utils.ts:97 | With the default empty list of names the result is empty |
| GasBudget.PrepareTransaction | src/Utils.ts:197-217 | A built transaction has gas limit twice the estimate, gas price 9 500 000 000, chain id 80001, the read nonce, the caller's from/to/data/value, and an upfront cost within the balance; a refusal reports that cost and the balance, with the balance below it |
| GasBudget.MaxAffordableEstimate | src/Utils.ts:202-205 | The largest estimate whose doubled gas at the fixed price, plus the value, fits in the balance |
| GasBudget.PrepareSucceedsIffAffordable | src/Utils.ts:202-207 | The transaction is built exactly when the value fits in the balance and the estimate is at most the largest affordable one |
| GasBudget.AffordabilityMonotone | src/Utils.ts:202-207 | An affordable call stays affordable with a smaller estimate, a smaller value or a larger balance |
| GasBudget.BalanceOnlyGates | src/Utils.ts:204-216 | The balance decides whether a transaction is built, never which one |
| GasBudget.ExampleAffordable | src/Utils.ts:202-203 | An estimate of 21000 gives gas limit 42000 and upfront cost 399 000 000 000 000 wei, affordable with one ether |
| GasBudget.ExampleInsufficient | src/Utils.ts:205-207 | Sending 5000 wei from a balance of 1000 is refused with cost 5000 and balance 1000 |
| ReceiptPolling.WaitForReceipt | src/Utils.ts:171-195 | At most `tries + 1` answers are consumed; a resolution is by the first settling answer, a confirming receipt for this hash in a non-zero block; a query error rejects on the first settling answer; giving up happens after exactly `tries + 1` unsettling answers and carries the last one |
| ReceiptPolling.SettledByFirstDecisive | src/Utils.ts:177-184 | When the k-th answer is the first error or confirming receipt and k is within the tries, the promise settles on it after k + 1 answers |
| ReceiptPolling.GivesUpAfterTries | src/Utils.ts:185-190 | `tries + 1` answers that neither error nor confirm make it reject with the last answer's receipt, if any |
| ReceiptPolling.PendingWhenResponsesRunOut | src/Utils.ts:173-193 | Fewer answers than that, none settling, leave the promise unsettled |
| ReceiptPolling.ForeignReceiptNeverResolves | src/Utils.ts:182 | A resolved receipt always carries the awaited transaction hash |
| ReceiptPolling.RevertedReceiptResolves | src/Utils.ts:182-184 | A receipt with a failed status still resolves the promise |
| ReceiptPolling.BlockZeroDoesNotConfirm | src/Utils.ts:182-190 | For any remaining answers and tries, a receipt in block 0 counts as unmined: with a try left it uses that try up and polling goes on with the remaining answers, one answer later; on the last try it is the receipt the rejection carries |
| ReceiptPolling.DefaultPollBound | src/Utils.ts:171 | With the default of 30 tries at most 31 answers are consumed |
| ReceiptPolling.ExampleConfirmedOnThirdPoll | src/Utils.ts:174-184 | Two empty answers then a receipt in block 100 resolve on the third answer |
| ReceiptPolling.ExampleNeverMined | src/Utils.ts:171-190 | Thirty-one empty answers reject with no receipt after consuming all 31 |
| TransactionRun.SignAndSend | src/Utils.ts:163-169 | An authorized transaction is signed, then its signature is broadcast, then only receipt answers for the broadcast hash follow, at most 31 of them; a broadcast error ends the run with that error; a resolution is the first settling receipt answer, within the default tries, and it confirms the broadcast hash in a non-zero block |
| TransactionRun.SendTransaction | src/Utils.ts:197-220 | A run starts with the nonce read; a refusal for funds performs only the three reads (nonce, estimate, balance) and nothing else; a resolution is the poller's first settling answer within the default tries, a receipt confirming the broadcast hash in a non-zero block |
| TransactionRun.ConfirmingAnswerResolves | src/Utils.ts:163-168 | Conversely, after a successful broadcast, the answer that is the first to settle within the default tries and confirms the hash in a non-zero block is the receipt the run resolves with |
| TransactionRun.AffordableIsSignedAndSent | src/Utils.ts:205-218 | When the three reads succeed and the cost fits the balance, the run signs the transaction built from those reads right after the reads, and broadcasts its signature next |
| TransactionRun.AffordableRunResolves | src/Utils.ts:205-220 | When the three reads succeed and the cost fits the balance, a broadcast error ends the run with that error, and a confirming first settling answer is what the run resolves with |
| TransactionRun.OnlyAuthorizedIsSigned | src/Utils.ts:197-218 | Whatever the node answers, any transaction a run signs was built from this run's reads (nonce, doubled estimate, fixed price and chain id, the caller's fields) and is affordable with the balance read, and the broadcast is its signature, right after signing |
| TransactionRun.RefusedIffUnaffordable | src/Utils.ts:199-207 | A run is refused for funds exactly when the three reads succeed and the balance is below twice the estimate times the gas price plus the value, and such a run neither signs nor sends |
| TransactionRun.AtMostOneBroadcast | src/Utils.ts:163-169 | A run signs at most once, broadcasts at most once, and records at most 36 effects in all (three reads, signing, broadcast, at most 31 consumed receipt answers) |
| TransactionRun.ExampleEndToEnd | src/Utils.ts:197-220 | Nonce 5, estimate 21000, one ether, receipt in the third answer: one transaction with gas limit 42000 is signed and sent, and the run resolves with that receipt |

## Left out

- Signing (`signTransaction`, `src/Utils.ts:158-161`) and address derivation (`privateToAddress`): elliptic-curve operations of external libraries; the signer is a function parameter and the derived address an input.
- `toHex`, `asciiToHex`, `numberToHex`, `isMnid`, `calculateHash`: thin wrappers over external libraries; hex-encoded transaction fields are the naturals they encode.
- `waitForEventName` and `estimateGas` (`src/Utils.ts:80-90`, `150-156`): event and promise plumbing; their outcomes are the node's answers in `Node` (the 'transactionHash' or 'error' event, the estimate or its error message).
- The effect trace records one receipt entry per answer consumed, not one per timer tick: `setInterval` sends a new `getTransactionReceipt` query every second until a callback clears it, so slow answers mean more queries than entries.
- The `setInterval` timing of `waitForTransactionReceipt`: answers are taken in the order the callbacks run; callbacks still in flight after settlement (which may call `tries--` or settle again, with no effect on the promise) are not modelled.
- `generateObjectId`, `isNowBeforeDate`, `isNowBetweenDates`, `isNowSameOrAfterDate`: they read the clock or `Math.random`.
- `console.info` of the receipt and the text of the cost/balance message: the refusal carries gas price, cost and balance as numbers instead.
- JavaScript numbers are unbounded integers: no floating point, no loss of precision above 2^53, no coercion of the balance string, no negative or fractional values.
- Properties inherited from `Object.prototype` (`obj['toString']`, `reducers['constructor']`) are not modelled: a leaf or operator named after one behaves as an absent key.
- Rule objects are given with their keys in `Object.keys` order (integer-like keys first); sparse arrays and array-like objects are not modelled.
- The nonce is read fresh per call with no reservation, so concurrent calls for one account can race; the model covers one call.
- The React views (`src/App.tsx`, `src/Users.tsx`, `src/Contacts.tsx`, `src/Companies.tsx`, `src/index.tsx`) and `src/global.d.ts`: rendering, forms and calls to Cognito, axios and web3.

=== FILE: abi_events.dfy ===
/**
 * `Utils.getABIEvent`: selecting the event descriptions a contract ABI
 * declares under a given list of names.
 */
module AbiEvents {
  import opened Wrappers

  /**
   * One ABI entry; `name` is absent for constructors and fallbacks. The
   * parameter list keeps overloaded events with one name apart.
   */
  datatype AbiEntry = AbiEntry(kind: string, name: Option<string>, inputs: seq<string>)

  const EventKind: string := "event"

  /** `item.type === 'event' && eventName.includes(item.name)`. */
  predicate Selected(e: AbiEntry, names: seq<string>) {
    e.kind == EventKind && e.name.Some? && e.name.value in names
  }

  /** `abi.filter(...)`; the list of names defaults to the empty list. */
  function GetAbiEvent(abi: seq<AbiEntry>, names: seq<string> := []): (r: seq<AbiEntry>)
    ensures |r| <= |abi|
    ensures forall e :: e in r <==> e in abi && Selected(e, names)
  {
    if |abi| == 0 then []
    else if Selected(abi[0], names) then [abi[0]] + GetAbiEvent(abi[1..], names)
    else GetAbiEvent(abi[1..], names)
  }

  /** `s` can be obtained from `t` by deleting elements, keeping the order of the rest. */
  predicate Subsequence<T(==)>(s: seq<T>, t: seq<T>)
    decreases |t|
  {
    if |s| == 0 then true
    else if |t| == 0 then false
    else (s[0] == t[0] && Subsequence(s[1..], t[1..])) || Subsequence(s, t[1..])
  }

  /** The selection keeps the entries in the order the ABI lists them. */
  lemma {:induction false} GetAbiEventIsSubsequence(abi: seq<AbiEntry>, names: seq<string>)
    ensures Subsequence(GetAbiEvent(abi, names), abi)
    decreases |abi|
  {
    if |abi| > 0 {
      GetAbiEventIsSubsequence(abi[1..], names);
      var r := GetAbiEvent(abi, names);
      if Selected(abi[0], names) {
        assert r[0] == abi[0] && r[1..] == GetAbiEvent(abi[1..], names);
      }
    }
  }

  /** Each selected entry keeps its multiplicity; every other entry is dropped. */
  lemma {:induction false} GetAbiEventCounts(abi: seq<AbiEntry>, names: seq<string>, e: AbiEntry)
    ensures multiset(GetAbiEvent(abi, names))[e] == if Selected(e, names) then multiset(abi)[e] else 0
    decreases |abi|
  {
    if |abi| > 0 {
      GetAbiEventCounts(abi[1..], names, e);
      assert abi == [abi[0]] + abi[1..];
    }
  }

  /** Filtering distributes over concatenation, which pins the order down. */
  lemma {:induction false} GetAbiEventAppend(a: seq<AbiEntry>, b: seq<AbiEntry>, names: seq<string>)
    ensures GetAbiEvent(a + b, names) == GetAbiEvent(a, names) + GetAbiEvent(b, names)
    decreases |a|
  {
    if |a| == 0 {
      assert a + b == b;
    } else {
      var ab := a + b;
      assert ab[0] == a[0] && ab[1..] == a[1..] + b;
      GetAbiEventAppend(a[1..], b, names);
      if Selected(a[0], names) {
        calc {
          GetAbiEvent(ab, names);
          [a[0]] + GetAbiEvent(a[1..] + b, names);
          [a[0]] + (GetAbiEvent(a[1..], names) + GetAbiEvent(b, names));
          ([a[0]] + GetAbiEvent(a[1..], names)) + GetAbiEvent(b, names);
        }
      }
    }
  }

  /** Selecting again with the same names changes nothing. */
  lemma {:induction false} GetAbiEventIdempotent(abi: seq<AbiEntry>, names: seq<string>)
    ensures GetAbiEvent(GetAbiEvent(abi, names), names) == GetAbiEvent(abi, names)
    decreases |abi|
  {
    if |abi| > 0 {
      GetAbiEventIdempotent(abi[1..], names);
      if Selected(abi[0], names) {
        var r := GetAbiEvent(abi, names);
        assert r[0] == abi[0] && r[1..] == GetAbiEvent(abi[1..], names);
      }
    }
  }

  /** With the default (empty) list of names nothing is selected. */
  lemma DefaultSelectsNothing(abi: seq<AbiEntry>)
    ensures GetAbiEvent(abi) == []
  {
  }
}

=== FILE: gas_budget.dfy ===
/**
 * The budgeting half of `Utils.sendTransaction`: turning the node's gas
 * estimate into a gas limit and a total cost, refusing the transaction when
 * the balance cannot cover that cost, and assembling the unsigned `rawTx`
 * record. Hex-encoded fields are modelled as the naturals they encode.
 */
module GasBudget {
  import opened Wrappers

  /** The fixed gas price, in wei, offered by every transaction. */
  const GasPrice: nat := 9_500_000_000
  /** The safety factor applied to the node's gas estimate. */
  const GasMultiplier: nat := 2
  /** The chain the transactions are signed for (Polygon Mumbai). */
  const ChainId: nat := 80001

  /** The unsigned transaction handed to the signer. */
  datatype RawTransaction = RawTransaction(
    from: string,
    gasPrice: nat,
    gasLimit: nat,
    nonce: nat,
    data: string,
    to: string,
    value: nat,
    chainId: nat)

  /** The message thrown before signing: gas price, total cost and balance. */
  datatype BudgetError = InsufficientFunds(gasPrice: nat, cost: nat, balance: nat)

  /** The most the ledger may debit for a transaction: its whole gas allowance plus the value sent. */
  function UpfrontCost(tx: RawTransaction): nat {
    tx.gasLimit * tx.gasPrice + tx.value
  }

  /**
   * The transaction `sendTransaction` signs for an account whose address is
   * `from`, whose transaction count is `nonce`, whose balance is `balance`,
   * given the node's gas estimate `estimate` for calling `to` with `data`.
   * `Math.round` is the identity on the integer estimate.
   */
  function PrepareTransaction(from: string, nonce: nat, estimate: nat, balance: nat,
                              to: string, data: string, value: nat := 0)
    : (r: Result<RawTransaction, BudgetError>)
    ensures r.Success? ==> UpfrontCost(r.value) <= balance
    ensures r.Success? ==> r.value.gasLimit == estimate + estimate
    ensures r.Success? ==> r.value == RawTransaction(from, GasPrice, r.value.gasLimit, nonce, data, to, value, ChainId)
    ensures r.Failure? ==>
      var refused := RawTransaction(from, GasPrice, estimate + estimate, nonce, data, to, value, ChainId);
      r.error == InsufficientFunds(GasPrice, UpfrontCost(refused), balance) && balance < UpfrontCost(refused)
  {
    var gasLimit := GasMultiplier * estimate;
    var cost := gasLimit * GasPrice + value;
    if balance < cost then
      Failure(InsufficientFunds(GasPrice, cost, balance))
    else
      Success(RawTransaction(
        from := from,
        gasPrice := GasPrice,
        gasLimit := gasLimit,
        nonce := nonce,
        data := data,
        to := to,
        value := value,
        chainId := ChainId))
  }

  /** The largest estimate a balance can pay for when `value` wei are also sent. */
  function MaxAffordableEstimate(balance: nat, value: nat): (m: nat)
    requires value <= balance
    ensures GasMultiplier * m * GasPrice + value <= balance
    ensures balance < GasMultiplier * (m + 1) * GasPrice + value
  {
    (balance - value) / (GasMultiplier * GasPrice)
  }

  /**
   * An independent reading of the affordability check: the transaction is
   * built exactly when the value fits in the balance and the estimate does
   * not exceed the largest affordable one.
   */
  lemma PrepareSucceedsIffAffordable(from: string, nonce: nat, estimate: nat, balance: nat,
                                     to: string, data: string, value: nat)
    ensures PrepareTransaction(from, nonce, estimate, balance, to, data, value).Success?
            <==> value <= balance && estimate <= MaxAffordableEstimate(balance, value)
  {
  }

  /**
   * Once affordable, a transaction stays affordable with a smaller estimate,
   * a smaller value or a larger balance.
   */
  lemma AffordabilityMonotone(from: string, nonce: nat, to: string, data: string,
                              estimate: nat, balance: nat, value: nat,
                              estimate': nat, balance': nat, value': nat)
    requires PrepareTransaction(from, nonce, estimate, balance, to, data, value).Success?
    requires estimate' <= estimate && value' <= value && balance <= balance'
    ensures PrepareTransaction(from, nonce, estimate', balance', to, data, value').Success?
  {
  }

  /** The balance only gates the transaction; it never shapes it. */
  lemma BalanceOnlyGates(from: string, nonce: nat, estimate: nat, to: string, data: string, value: nat,
                         balance1: nat, balance2: nat)
    requires PrepareTransaction(from, nonce, estimate, balance1, to, data, value).Success?
    requires PrepareTransaction(from, nonce, estimate, balance2, to, data, value).Success?
    ensures PrepareTransaction(from, nonce, estimate, balance1, to, data, value)
         == PrepareTransaction(from, nonce, estimate, balance2, to, data, value)
  {
  }

  /** A 21000-gas call from an account holding one ether, with nothing sent. */
  lemma ExampleAffordable(from: string, to: string, data: string)
    ensures PrepareTransaction(from, 5, 21000, 1_000_000_000_000_000_000, to, data).Success?
    ensures var tx := PrepareTransaction(from, 5, 21000, 1_000_000_000_000_000_000, to, data).value;
            tx.gasLimit == 42000 && tx.nonce == 5 && UpfrontCost(tx) == 399_000_000_000_000
  {
  }

  /**
   * An account holding 1000 wei cannot send 5000 wei, whatever the estimate;
   * with an estimate of 0 the reported cost is exactly 5000.
   */
  lemma ExampleInsufficient(from: string, to: string, data: string, estimate: nat)
    ensures PrepareTransaction(from, 0, estimate, 1000, to, data, 5000).Failure?
    ensures PrepareTransaction(from, 0, 0, 1000, to, data, 5000)
            == Failure(InsufficientFunds(GasPrice, 5000, 1000))
  {
  }
}

=== FILE: js_values.dfy ===
/**
 * The dynamically typed JavaScript values that the rule evaluator receives.
 * Numbers are modelled as integers; an object is the list of its own
 * enumerable properties in `Object.keys` order.
 */
module JsValues {

  datatype Value =
    | Undefined
    | Null
    | Bool(b: bool)
    | Num(n: int)
    | Str(s: string)
    | Arr(items: seq<Value>)
    | Obj(fields: seq<(string, Value)>)

  /** A plain record indexed by property name, such as the object a rule is checked against. */
  type Record = map<string, Value>
}

=== FILE: key_rules.dfy ===
/**
 * `Utils.validateKeys`: a recursive evaluator of key-presence rules.
 *
 * A rule is an object whose FIRST key names an operator: `$and` and `$or`
 * take a non-empty array of sub-rules, `$not` takes a single sub-rule.
 * Inside an operator's array a string stands for "this key is present".
 * Every other shape throws. The evaluator is modelled on arbitrary
 * JavaScript values so that the malformed cases are part of the model.
 */
module KeyRules {
  import opened Wrappers
  import opened JsValues

  /** What `validateKeys` throws. */
  datatype RuleError =
    | InvalidRule         // `new Error('invalid rule')`
    | NotObjectCoercible  // `Object.keys(null)` / `Object.keys(undefined)` raise a TypeError
    | ReducerNotCallable  // `reduce(undefined, ...)` for an operator other than `$and`/`$or`

  const NotOp: string := "$not"
  const AndOp: string := "$and"
  const OrOp: string := "$or"

  /** The meaning of a string leaf: `obj[key]` is neither `undefined` nor `null`. */
  predicate Present(obj: Record, key: string) {
    key in obj && obj[key] != Undefined && obj[key] != Null
  }

  function Conj(acc: bool, val: bool): bool { acc && val }

  function Disj(acc: bool, val: bool): bool { acc || val }

  /** The `reducers` table: only `$and` and `$or` have an entry. */
  function Reducer(op: string): Option<(bool, bool) -> bool> {
    if op == AndOp then Some(Conj)
    else if op == OrOp then Some(Disj)
    else None
  }

  /** `Array.prototype.reduce` with an initial value: a left fold. */
  function Reduce(f: (bool, bool) -> bool, vals: seq<bool>, acc: bool): bool
    decreases |vals|
  {
    if |vals| == 0 then acc else Reduce(f, vals[1..], f(acc, vals[0]))
  }

  /** The first thrown error of a completed `map`, or the mapped values. */
  function FirstFailure(results: seq<Result<bool, RuleError>>): (r: Result<seq<bool>, RuleError>)
    ensures r.Success? <==> forall i :: 0 <= i < |results| ==> results[i].Success?
    ensures r.Success? ==> |r.value| == |results|
                           && forall i :: 0 <= i < |results| ==> r.value[i] == results[i].value
    ensures r.Failure? ==> exists i :: 0 <= i < |results| && results[i] == Failure(r.error)
                                       && forall j :: 0 <= j < i ==> results[j].Success?
  {
    if |results| == 0 then Success([])
    else if results[0].Failure? then Failure(results[0].error)
    else
      var rest := FirstFailure(results[1..]);
      if rest.Failure? then
        assert forall i :: 1 <= i < |results| ==> results[i] == results[1..][i - 1];
        Failure(rest.error)
      else Success([results[0].value] + rest.value)
  }

  /** `!validateKeys(...)`: a thrown error passes through unchanged. */
  function Negate(r: Result<bool, RuleError>): Result<bool, RuleError> {
    match r
    case Success(b) => Success(!b)
    case Failure(e) => Failure(e)
  }

  /**
   * `validateKeys(rule, obj)`. Only the first key of `Object.keys(rule)` is
   * looked at; for an array that key is "0" and for a non-empty string it is
   * "0" too, whose value is a one-character string and so never an array.
   */
  function ValidateKeys(rule: Value, obj: Record): (r: Result<bool, RuleError>)
    ensures r.Success? ==> rule.Obj? && |rule.fields| > 0
                           && (rule.fields[0].0 == NotOp || rule.fields[0].0 == AndOp || rule.fields[0].0 == OrOp)
    decreases rule, 1
  {
    match rule
    case Undefined => Failure(NotObjectCoercible)
    case Null => Failure(NotObjectCoercible)
    case Obj(fields) =>
      if |fields| == 0 then Failure(InvalidRule)
      else if fields[0].0 == NotOp then Negate(ValidateKeys(fields[0].1, obj))
      else ApplyOperator(fields[0].0, fields[0].1, obj)
    case Arr(items) =>
      if |items| == 0 then Failure(InvalidRule) else ApplyOperator("0", items[0], obj)
    case _ =>
      // booleans and numbers have no keys, so rule[undefined] is undefined
      Failure(InvalidRule)
  }

  /** The value a child of an operator's array evaluates to. */
  function EvaluateChild(child: Value, obj: Record): (r: Result<bool, RuleError>)
    ensures child.Str? ==> r == Success(Present(obj, child.s))
    ensures r.Success? ==> child.Str? || child.Obj?
    decreases child, 2
  {
    if child.Str? then Success(Present(obj, child.s)) else ValidateKeys(child, obj)
  }

  /**
   * The non-`$not` branch: the operand must be a non-empty array; every
   * child is evaluated (the `map` runs to completion before `reduce`), the
   * first error thrown propagates, and the results are folded from seed
   * `op === '$and'`.
   */
  function ApplyOperator(op: string, operand: Value, obj: Record): (r: Result<bool, RuleError>)
    ensures !operand.Arr? || |operand.items| == 0 ==> r == Failure(InvalidRule)
    ensures r.Success? ==>
              && (op == AndOp || op == OrOp) && operand.Arr?
              && forall i :: 0 <= i < |operand.items| ==> EvaluateChild(operand.items[i], obj).Success?
    ensures r.Success? && op == AndOp ==>
              (r.value <==> forall i :: 0 <= i < |operand.items| ==> EvaluateChild(operand.items[i], obj).value)
    ensures r.Success? && op == OrOp ==>
              (r.value <==> exists i :: 0 <= i < |operand.items| && EvaluateChild(operand.items[i], obj).value)
    decreases operand, 0
  {
    if !operand.Arr? || |operand.items| == 0 then Failure(InvalidRule)
    else
      var mapped := seq(|operand.items|, i requires 0 <= i < |operand.items| =>
                          EvaluateChild(operand.items[i], obj));
      match FirstFailure(mapped)
      case Failure(e) => Failure(e)
      case Success(vals) =>
        match Reducer(op)
        case None => Failure(ReducerNotCallable)
        case Some(f) =>
          assert forall i :: 0 <= i < |operand.items| ==>
                   mapped[i] == EvaluateChild(operand.items[i], obj) && vals[i] == mapped[i].value;
          ReduceConjIsAll(vals, true);
          ReduceDisjIsAny(vals, false);
          Success(Reduce(f, vals, op == AndOp))
  }

  // ---------------------------------------------------------------------
  // The fold of `reduce`

  /** Folding `acc && val` from `acc` yields `acc` and every value. */
  lemma {:induction false} ReduceConjIsAll(vals: seq<bool>, acc: bool)
    ensures Reduce(Conj, vals, acc) <==> acc && forall i :: 0 <= i < |vals| ==> vals[i]
    decreases |vals|
  {
    if |vals| > 0 {
      ReduceConjIsAll(vals[1..], Conj(acc, vals[0]));
      assert forall i :: 1 <= i < |vals| ==> vals[i] == vals[1..][i - 1];
    }
  }

  /** Folding `acc || val` from `acc` yields `acc` or some value. */
  lemma {:induction false} ReduceDisjIsAny(vals: seq<bool>, acc: bool)
    ensures Reduce(Disj, vals, acc) <==> acc || exists i :: 0 <= i < |vals| && vals[i]
    decreases |vals|
  {
    if |vals| > 0 {
      ReduceDisjIsAny(vals[1..], Disj(acc, vals[0]));
      assert forall i :: 1 <= i < |vals| ==> vals[i] == vals[1..][i - 1];
      if vals[0] {
        assert exists i :: 0 <= i < |vals| && vals[i];
      }
    }
  }

  // ---------------------------------------------------------------------
  // Well-formed rules and their meaning

  /** The rule language as its authors write it. */
  datatype Rule =
    | Key(name: string)
    | And(args: seq<Rule>)
    | Or(args: seq<Rule>)
    | Not(arg: Rule)

  /** The JavaScript object literal a rule is written as. */
  function Encode(r: Rule): Value {
    match r
    case Key(k) => Str(k)
    case And(args) => Obj([(AndOp, Arr(seq(|args|, i requires 0 <= i < |args| => Encode(args[i]))))])
    case Or(args) => Obj([(OrOp, Arr(seq(|args|, i requires 0 <= i < |args| => Encode(args[i]))))])
    case Not(a) => Obj([(NotOp, Encode(a))])
  }

  /**
   * Whether a rule can be evaluated without throwing: a key may only appear
   * inside an `$and`/`$or` array (not at the top, not directly under
   * `$not`), and every `$and`/`$or` array is non-empty.
   */
  predicate WellFormed(r: Rule) {
    match r
    case Key(_) => false
    case And(args) => |args| > 0 && forall i :: 0 <= i < |args| ==> args[i].Key? || WellFormed(args[i])
    case Or(args) => |args| > 0 && forall i :: 0 <= i < |args| ==> args[i].Key? || WellFormed(args[i])
    case Not(a) => WellFormed(a)
  }

  /** The intended meaning of a rule, stated with quantifiers instead of folds. */
  predicate Holds(r: Rule, obj: Record) {
    match r
    case Key(k) => Present(obj, k)
    case And(args) => forall i :: 0 <= i < |args| ==> Holds(args[i], obj)
    case Or(args) => exists i :: 0 <= i < |args| && Holds(args[i], obj)
    case Not(a) => !Holds(a, obj)
  }

  /**
   * Evaluating a written rule returns its meaning exactly when the rule is
   * well formed, and throws 'invalid rule' exactly when it is not.
   */
  lemma {:induction false} ValidateKeysMeaning(r: Rule, obj: Record)
    ensures ValidateKeys(Encode(r), obj)
            == if WellFormed(r) then Success(Holds(r, obj)) else Failure(InvalidRule)
    decreases r
  {
    match r
    case Key(k) =>
    case Not(a) =>
      ValidateKeysMeaning(a, obj);
    case And(args) =>
      OperatorMeaning(r, args, obj);
    case Or(args) =>
      OperatorMeaning(r, args, obj);
  }

  lemma {:induction false} OperatorMeaning(r: Rule, args: seq<Rule>, obj: Record)
    requires r.And? || r.Or?
    requires args == r.args
    ensures ValidateKeys(Encode(r), obj)
            == if WellFormed(r) then Success(Holds(r, obj)) else Failure(InvalidRule)
    decreases r, 1
  {
    var op := if r.And? then AndOp else OrOp;
    var encs := seq(|args|, i requires 0 <= i < |args| => Encode(args[i]));
    assert Encode(r) == Obj([(op, Arr(encs))]);
    if |args| > 0 {
      ChildrenMeaning(r, obj);
      if WellFormed(r) {
        WellFormedOperator(r, op, encs, obj);
      } else {
        var i :| 0 <= i < |args| && !(args[i].Key? || WellFormed(args[i]));
        SomeChildInvalid(op, encs, obj, i);
      }
    }
  }

  /** `$and`/`$or` over children that evaluate to their meanings yields the operator's meaning. */
  lemma WellFormedOperator(r: Rule, op: string, encs: seq<Value>, obj: Record)
    requires r.And? || r.Or?
    requires op == if r.And? then AndOp else OrOp
    requires |encs| == |r.args| > 0
    requires forall i :: 0 <= i < |encs| ==> EvaluateChild(encs[i], obj) == Success(Holds(r.args[i], obj))
    ensures ApplyOperator(op, Arr(encs), obj) == Success(Holds(r, obj))
  {
    ChildrenSucceed(op, encs, obj);
    if r.Or? && Holds(r, obj) {
      var i :| 0 <= i < |r.args| && Holds(r.args[i], obj);
      assert EvaluateChild(encs[i], obj).value;
    }
  }

  /** `$and`/`$or` over children that all evaluate yields a result. */
  lemma ChildrenSucceed(op: string, items: seq<Value>, obj: Record)
    requires op == AndOp || op == OrOp
    requires |items| > 0
    requires forall i :: 0 <= i < |items| ==> EvaluateChild(items[i], obj).Success?
    ensures ApplyOperator(op, Arr(items), obj).Success?
  {
    var mapped := seq(|items|, i requires 0 <= i < |items| => EvaluateChild(items[i], obj));
    assert FirstFailure(mapped).Success?;
  }

  /** When every child that throws throws 'invalid rule' and one does, so does the operator. */
  lemma SomeChildInvalid(op: string, items: seq<Value>, obj: Record, i: nat)
    requires i < |items|
    requires EvaluateChild(items[i], obj).Failure?
    requires forall j :: 0 <= j < |items| && EvaluateChild(items[j], obj).Failure? ==>
               EvaluateChild(items[j], obj).error == InvalidRule
    ensures ApplyOperator(op, Arr(items), obj) == Failure(InvalidRule)
  {
    var mapped := seq(|items|, j requires 0 <= j < |items| => EvaluateChild(items[j], obj));
    assert mapped[i].Failure?;
    assert FirstFailure(mapped).Failure?;
  }

  /** Each child of an `$and`/`$or` evaluates to its meaning, or throws 'invalid rule'. */
  lemma {:induction false} ChildrenMeaning(r: Rule, obj: Record)
    requires r.And? || r.Or?
    ensures forall i :: 0 <= i < |r.args| ==>
              EvaluateChild(Encode(r.args[i]), obj)
              == if r.args[i].Key? || WellFormed(r.args[i])
                 then Success(Holds(r.args[i], obj)) else Failure(InvalidRule)
    decreases r, 0
  {
    forall i | 0 <= i < |r.args|
      ensures EvaluateChild(Encode(r.args[i]), obj)
              == if r.args[i].Key? || WellFormed(r.args[i])
                 then Success(Holds(r.args[i], obj)) else Failure(InvalidRule)
    {
      if !r.args[i].Key? {
        ValidateKeysMeaning(r.args[i], obj);
      }
    }
  }

  // ---------------------------------------------------------------------
  // Behaviour on arbitrary rule values

  /** Keys after the first one are never looked at. */
  lemma OnlyFirstKeyCounts(k: string, v: Value, rest1: seq<(string, Value)>, rest2: seq<(string, Value)>, obj: Record)
    ensures ValidateKeys(Obj([(k, v)] + rest1), obj) == ValidateKeys(Obj([(k, v)] + rest2), obj)
  {
  }

  /** `{$not: {$not: r}}` behaves as `r`, errors included. */
  lemma DoubleNegation(rule: Value, obj: Record)
    ensures ValidateKeys(Obj([(NotOp, Obj([(NotOp, rule)]))]), obj) == ValidateKeys(rule, obj)
  {
  }

  /**
   * A key directly under `$not` is evaluated as a rule, not as a leaf:
   * `{$not: 'k'}` throws whatever the object holds.
   */
  lemma NotOfKeyThrows(k: string, obj: Record)
    ensures ValidateKeys(Obj([(NotOp, Str(k))]), obj) == Failure(InvalidRule)
  {
  }

  /** Any other operator whose operand is not a non-empty array throws 'invalid rule'. */
  lemma OperandMustBeNonEmptyArray(op: string, operand: Value, obj: Record)
    requires op != NotOp
    requires !operand.Arr? || |operand.items| == 0
    ensures ValidateKeys(Obj([(op, operand)]), obj) == Failure(InvalidRule)
  {
  }

  /**
   * No short-circuit: the first child that throws decides the result, even
   * when an earlier child already settled the `$and` or `$or`.
   */
  lemma ChildErrorPropagates(op: string, items: seq<Value>, obj: Record, i: nat)
    requires op != NotOp
    requires i < |items|
    requires forall j :: 0 <= j < i ==> EvaluateChild(items[j], obj).Success?
    requires EvaluateChild(items[i], obj).Failure?
    ensures ValidateKeys(Obj([(op, Arr(items))]), obj) == Failure(EvaluateChild(items[i], obj).error)
  {
    var mapped := seq(|items|, j requires 0 <= j < |items| => EvaluateChild(items[j], obj));
    var ff := FirstFailure(mapped);
    assert mapped[i].Failure?;
    var k :| 0 <= k < |mapped| && mapped[k] == Failure(ff.error)
             && forall j :: 0 <= j < k ==> mapped[j].Success?;
    assert k == i;
  }

  /** An operator without a reducer throws once all of its children evaluated. */
  lemma UnknownOperatorThrows(op: string, items: seq<Value>, obj: Record)
    requires op != NotOp && op != AndOp && op != OrOp
    requires |items| > 0
    requires forall j :: 0 <= j < |items| ==> EvaluateChild(items[j], obj).Success?
    ensures ValidateKeys(Obj([(op, Arr(items))]), obj) == Failure(ReducerNotCallable)
  {
  }

  /** `{$and: [k]}` tests exactly whether `k` is present. */
  lemma SingleKeyRule(k: string, obj: Record)
    ensures ValidateKeys(Encode(And([Key(k)])), obj) == Success(Present(obj, k))
  {
    ValidateKeysMeaning(And([Key(k)]), obj);
    assert Holds(And([Key(k)]), obj) == Holds(Key(k), obj);
  }

  /** A present value that is falsy in JavaScript still satisfies a leaf. */
  lemma FalsyValuesArePresent(k: string, obj: Record)
    ensures ValidateKeys(Encode(And([Key(k)])), obj[k := Num(0)]) == Success(true)
    ensures ValidateKeys(Encode(And([Key(k)])), obj[k := Str("")]) == Success(true)
    ensures ValidateKeys(Encode(And([Key(k)])), obj[k := Bool(false)]) == Success(true)
    ensures ValidateKeys(Encode(And([Key(k)])), obj[k := Null]) == Success(false)
    ensures ValidateKeys(Encode(And([Key(k)])), obj[k := Undefined]) == Success(false)
  {
    SingleKeyRule(k, obj[k := Num(0)]);
    SingleKeyRule(k, obj[k := Str("")]);
    SingleKeyRule(k, obj[k := Bool(false)]);
    SingleKeyRule(k, obj[k := Null]);
    SingleKeyRule(k, obj[k := Undefined]);
  }
}

=== FILE: receipt_polling.dfy ===
/**
 * `Utils.waitForTransactionReceipt` without its timer: the callbacks' answers
 * arrive as a sequence of poll responses, in the order the callbacks run,
 * and the promise's settlement is computed from them.
 */
module ReceiptPolling {
  import opened Wrappers

  /** The number of unsuccessful polls tolerated when the caller gives none. */
  const DefaultTries: nat := 30

  /** A mined-transaction receipt; `blockNumber` is absent while pending. */
  datatype Receipt = Receipt(transactionHash: string, blockNumber: Option<nat>, status: bool)

  /** What one `getTransactionReceipt` callback receives. */
  datatype PollResponse =
    | QueryError(message: string)   // a truthy `error`
    | NoReceipt                     // no error, no receipt yet
    | Found(receipt: Receipt)       // no error, some receipt

  /** Why the promise rejects: the query's error, or the last response once the tries ran out. */
  datatype Rejection = QueryFailed(message: string) | GaveUp(last: Option<Receipt>)

  /** `Pending` means the responses ran out before the promise settled. */
  datatype PollOutcome = Resolved(receipt: Receipt) | Rejected(reason: Rejection) | Pending

  /** The settlement together with the number of responses it consumed. */
  datatype PollResult = PollResult(outcome: PollOutcome, polls: nat)

  /**
   * `txReceipt && txReceipt['transactionHash'] == txHash && txReceipt['blockNumber']`:
   * block number 0 is falsy, and the status is not consulted.
   */
  predicate Confirms(resp: PollResponse, txHash: string) {
    && resp.Found?
    && resp.receipt.transactionHash == txHash
    && resp.receipt.blockNumber.Some?
    && resp.receipt.blockNumber.value != 0
  }

  /** A response that settles the promise whatever the remaining tries. */
  predicate Decisive(resp: PollResponse, txHash: string) {
    resp.QueryError? || Confirms(resp, txHash)
  }

  /** None of the first `n` responses settles the promise. */
  predicate Quiet(responses: seq<PollResponse>, n: nat, txHash: string)
    requires n <= |responses|
  {
    forall j :: 0 <= j < n ==> !Decisive(responses[j], txHash)
  }

  function LastReceipt(resp: PollResponse): Option<Receipt> {
    if resp.Found? then Some(resp.receipt) else None
  }

  /**
   * The promise returned for `txHash`, with `tries` unsuccessful polls
   * allowed before the final one. Each result states which response settled it.
   */
  function WaitForReceipt(txHash: string, responses: seq<PollResponse>, tries: nat := DefaultTries)
    : (r: PollResult)
    ensures r.polls <= |responses| && r.polls <= tries + 1
    ensures r.outcome.Resolved? ==>
              && 1 <= r.polls
              && Quiet(responses, r.polls - 1, txHash)
              && Confirms(responses[r.polls - 1], txHash)
              && r.outcome.receipt == responses[r.polls - 1].receipt
    ensures r.outcome.Rejected? && r.outcome.reason.QueryFailed? ==>
              && 1 <= r.polls
              && Quiet(responses, r.polls - 1, txHash)
              && responses[r.polls - 1] == QueryError(r.outcome.reason.message)
    ensures r.outcome.Rejected? && r.outcome.reason.GaveUp? ==>
              && r.polls == tries + 1
              && Quiet(responses, tries + 1, txHash)
              && r.outcome.reason.last == LastReceipt(responses[tries])
    ensures r.outcome.Pending? ==>
              && r.polls == |responses| <= tries
              && Quiet(responses, |responses|, txHash)
    decreases |responses|
  {
    if |responses| == 0 then PollResult(Pending, 0)
    else
      var resp := responses[0];
      if resp.QueryError? then
        PollResult(Rejected(QueryFailed(resp.message)), 1)
      else if Confirms(resp, txHash) then
        PollResult(Resolved(resp.receipt), 1)
      else if tries > 0 then
        var rest := WaitForReceipt(txHash, responses[1..], tries - 1);
        assert forall j :: 1 <= j <= rest.polls ==> responses[j] == responses[1..][j - 1];
        PollResult(rest.outcome, rest.polls + 1)
      else
        PollResult(Rejected(GaveUp(LastReceipt(resp))), 1)
  }

  /**
   * The first settling response decides: a query error rejects at once, a
   * confirming receipt resolves, provided the tries have not run out first.
   */
  lemma SettledByFirstDecisive(txHash: string, responses: seq<PollResponse>,
                                                 tries: nat, k: nat)
    requires k <= tries && k < |responses|
    requires Quiet(responses, k, txHash) && Decisive(responses[k], txHash)
    ensures WaitForReceipt(txHash, responses, tries).polls == k + 1
    ensures WaitForReceipt(txHash, responses, tries).outcome
            == if responses[k].QueryError? then Rejected(QueryFailed(responses[k].message))
               else Resolved(responses[k].receipt)
  {
  }

  /** `tries + 1` responses that settle nothing make the promise reject with the last one. */
  lemma GivesUpAfterTries(txHash: string, responses: seq<PollResponse>, tries: nat)
    requires tries < |responses|
    requires Quiet(responses, tries + 1, txHash)
    ensures WaitForReceipt(txHash, responses, tries)
            == PollResult(Rejected(GaveUp(LastReceipt(responses[tries]))), tries + 1)
  {
  }

  /** Too few responses, none settling, leave the promise unsettled. */
  lemma PendingWhenResponsesRunOut(txHash: string, responses: seq<PollResponse>, tries: nat)
    requires |responses| <= tries
    requires Quiet(responses, |responses|, txHash)
    ensures WaitForReceipt(txHash, responses, tries) == PollResult(Pending, |responses|)
  {
  }

  /** A receipt for another transaction never resolves the promise. */
  lemma ForeignReceiptNeverResolves(txHash: string, responses: seq<PollResponse>, tries: nat)
    ensures var r := WaitForReceipt(txHash, responses, tries);
            r.outcome.Resolved? ==> r.outcome.receipt.transactionHash == txHash
  {
  }

  /** A mined but reverted transaction resolves like a successful one. */
  lemma RevertedReceiptResolves(txHash: string, block: nat, tries: nat)
    requires block != 0
    ensures WaitForReceipt(txHash, [Found(Receipt(txHash, Some(block), false))], tries)
            == PollResult(Resolved(Receipt(txHash, Some(block), false)), 1)
  {
  }

  /**
   * A receipt in block 0 counts as unmined: with tries left it uses one up
   * and polling goes on with the rest, and on the last try it is the
   * receipt the rejection carries.
   */
  lemma BlockZeroDoesNotConfirm(txHash: string, status: bool, rest: seq<PollResponse>, tries: nat)
    ensures var zero := Found(Receipt(txHash, Some(0), status));
            var r := WaitForReceipt(txHash, rest, tries);
            WaitForReceipt(txHash, [zero] + rest, tries + 1) == PollResult(r.outcome, r.polls + 1)
    ensures WaitForReceipt(txHash, [Found(Receipt(txHash, Some(0), status))] + rest, 0)
            == PollResult(Rejected(GaveUp(Some(Receipt(txHash, Some(0), status)))), 1)
  {
  }

  /** With the default tries at most 31 answers are consumed. */
  lemma DefaultPollBound(txHash: string, responses: seq<PollResponse>)
    ensures WaitForReceipt(txHash, responses).polls <= 31
  {
  }

  /** Two empty answers, then a receipt in block 100: resolved on the third poll. */
  lemma ExampleConfirmedOnThirdPoll(txHash: string)
    ensures WaitForReceipt(txHash, [NoReceipt, NoReceipt, Found(Receipt(txHash, Some(100), true))])
            == PollResult(Resolved(Receipt(txHash, Some(100), true)), 3)
  {
  }

  /** Thirty-one empty answers exhaust the default tries; the rejection carries no receipt. */
  lemma ExampleNeverMined(txHash: string)
    ensures WaitForReceipt(txHash, seq(31, _ => NoReceipt)) == PollResult(Rejected(GaveUp(None)), 31)
  {
  }
}

=== FILE: send_transaction.dfy ===
/**
 * `Utils.sendTransaction` followed by `Utils.sendRawTransaction`: read the
 * nonce, the gas estimate and the balance, refuse an unaffordable call, sign
 * the assembled transaction, broadcast it and wait for its receipt.
 *
 * The node's answers are inputs (`Node`), and the signer is a parameter:
 * address derivation and elliptic-curve signing are outside the model.
 * The result records every effect, in order, so that what did NOT happen
 * can be stated.
 */
module TransactionRun {
  import opened Wrappers
  import opened GasBudget
  import opened ReceiptPolling

  /** What the node answers to each request of one run. */
  datatype Node = Node(
    transactionCount: Result<nat, string>,
    gasEstimate: Result<nat, string>,
    balance: Result<nat, string>,
    broadcast: Result<string, string>,   // the 'transactionHash' event, or the 'error' event
    receipts: seq<PollResponse>)

  /**
   * The requests made to the node, the one local step that uses the key,
   * and each receipt answer consumed (the timer may have sent more queries).
   */
  datatype Effect =
    | GetTransactionCount(address: string)
    | EstimateGas(sender: string, payload: string, target: string)
    | GetBalance(address: string)
    | Sign(tx: RawTransaction)
    | SendSignedTransaction(signed: string)
    | ReceiptAnswer(hash: string)

  datatype SendError =
    | NodeFailed(message: string)          // a rejected read
    | Budget(error: BudgetError)           // the cost/balance message
    | BroadcastFailed(message: string)
    | ReceiptRejected(reason: Rejection)
    | ReceiptPending                       // the node's answers ran out first

  datatype Run = Run(outcome: Result<Receipt, SendError>, effects: seq<Effect>)

  function Reads(from: string, data: string, to: string): seq<Effect> {
    [GetTransactionCount(from), EstimateGas(from, data, to), GetBalance(from)]
  }

  function Polls(hash: string, n: nat): seq<Effect> {
    seq(n, _ => ReceiptAnswer(hash))
  }

  /** The transaction the account may sign: built from this run's reads and affordable. */
  predicate Authorized(tx: RawTransaction, node: Node, from: string, to: string, data: string, value: nat) {
    && node.transactionCount.Success? && node.gasEstimate.Success? && node.balance.Success?
    && tx.from == from && tx.to == to && tx.data == data && tx.value == value
    && tx.nonce == node.transactionCount.value
    && tx.gasLimit == GasMultiplier * node.gasEstimate.value
    && tx.gasPrice == GasPrice && tx.chainId == ChainId
    && UpfrontCost(tx) <= node.balance.value
  }

  /**
   * `receipt` is what the poller resolves with for `hash`: the first answer
   * that settles, within the default tries, is a confirming receipt, and it
   * is that receipt.
   */
  predicate ConfirmedByPoller(receipts: seq<PollResponse>, hash: string, receipt: Receipt) {
    exists k :: 0 <= k < |receipts| && k <= DefaultTries
                && Quiet(receipts, k, hash) && Confirms(receipts[k], hash) && receipt == receipts[k].receipt
  }

  /**
   * `sendRawTransaction` for an authorized transaction: sign it, broadcast
   * it, and wait for its receipt with the default number of tries.
   */
  function SignAndSend(node: Node, tx: RawTransaction, sign: RawTransaction -> string): (run: Run)
    ensures 2 <= |run.effects| && run.effects[0] == Sign(tx)
    ensures run.effects[1] == SendSignedTransaction(sign(tx))
    ensures forall i :: 2 <= i < |run.effects| ==>
              node.broadcast.Success? && run.effects[i] == ReceiptAnswer(node.broadcast.value)
    ensures |run.effects| <= 2 + DefaultTries + 1
    ensures node.broadcast.Failure? ==> run.outcome == Failure(BroadcastFailed(node.broadcast.error))
    ensures run.outcome.Success? ==>
              && node.broadcast.Success? && run.outcome.value.transactionHash == node.broadcast.value
              && ConfirmedByPoller(node.receipts, node.broadcast.value, run.outcome.value)
  {
    var sent := [Sign(tx), SendSignedTransaction(sign(tx))];
    match node.broadcast
    case Failure(m) => Run(Failure(BroadcastFailed(m)), sent)
    case Success(hash) =>
      var poll := WaitForReceipt(hash, node.receipts);
      var outcome := match poll.outcome
        case Resolved(receipt) => Success(receipt)
        case Rejected(reason) => Failure(ReceiptRejected(reason))
        case Pending => Failure(ReceiptPending);
      assert poll.outcome.Resolved? ==> ConfirmedByPoller(node.receipts, hash, poll.outcome.receipt) by {
        if poll.outcome.Resolved? {
          var k := poll.polls - 1;
          assert Quiet(node.receipts, k, hash) && Confirms(node.receipts[k], hash);
        }
      }
      Run(outcome, sent + Polls(hash, poll.polls))
  }

  function SendTransaction(node: Node, from: string, sign: RawTransaction -> string,
                           to: string, data: string, value: nat := 0): (run: Run)
    ensures 1 <= |run.effects| && run.effects[0] == GetTransactionCount(from)
    ensures run.outcome.Failure? && run.outcome.error.Budget? ==> run.effects == Reads(from, data, to)
    ensures run.outcome.Success? ==>
              && node.broadcast.Success? && run.outcome.value.transactionHash == node.broadcast.value
              && ConfirmedByPoller(node.receipts, node.broadcast.value, run.outcome.value)
  {
    match node.transactionCount
    case Failure(m) => Run(Failure(NodeFailed(m)), [GetTransactionCount(from)])
    case Success(nonce) =>
      match node.gasEstimate
      case Failure(m) => Run(Failure(NodeFailed(m)), Reads(from, data, to)[..2])
      case Success(estimate) =>
        match node.balance
        case Failure(m) => Run(Failure(NodeFailed(m)), Reads(from, data, to))
        case Success(balance) =>
          match PrepareTransaction(from, nonce, estimate, balance, to, data, value)
          case Failure(e) => Run(Failure(Budget(e)), Reads(from, data, to))
          case Success(tx) =>
            var submitted := SignAndSend(node, tx, sign);
            var effects := Reads(from, data, to) + submitted.effects;
            Run(submitted.outcome, effects)
  }

  /**
   * Conversely, once the broadcast succeeds, a confirming answer that is the
   * first to settle within the default tries is what the run resolves with.
   */
  lemma ConfirmingAnswerResolves(node: Node, tx: RawTransaction, sign: RawTransaction -> string,
                                   receipt: Receipt)
    requires node.broadcast.Success? && ConfirmedByPoller(node.receipts, node.broadcast.value, receipt)
    ensures SignAndSend(node, tx, sign).outcome == Success(receipt)
  {
    var hash := node.broadcast.value;
    var k :| 0 <= k < |node.receipts| && k <= DefaultTries
             && Quiet(node.receipts, k, hash) && Confirms(node.receipts[k], hash) && receipt == node.receipts[k].receipt;
    SettledByFirstDecisive(hash, node.receipts, DefaultTries, k);
  }

  /**
   * An affordable call whose three reads succeed signs the transaction built
   * from them, right after the reads, and broadcasts its signature next.
   */
  lemma AffordableIsSignedAndSent(node: Node, from: string, sign: RawTransaction -> string,
                                  to: string, data: string, value: nat)
    requires node.transactionCount.Success? && node.gasEstimate.Success? && node.balance.Success?
    requires GasMultiplier * node.gasEstimate.value * GasPrice + value <= node.balance.value
    ensures var run := SendTransaction(node, from, sign, to, data, value);
            var tx := RawTransaction(from, GasPrice, GasMultiplier * node.gasEstimate.value,
                                     node.transactionCount.value, data, to, value, ChainId);
            && 5 <= |run.effects| && run.effects[..3] == Reads(from, data, to)
            && run.effects[3] == Sign(tx) && run.effects[4] == SendSignedTransaction(sign(tx))
  {
  }

  /**
   * An affordable call whose reads and broadcast succeed resolves with the
   * receipt the poller confirms; a broadcast error ends it with that error.
   */
  lemma AffordableRunResolves(node: Node, from: string, sign: RawTransaction -> string,
                               to: string, data: string, value: nat, receipt: Receipt)
    requires node.transactionCount.Success? && node.gasEstimate.Success? && node.balance.Success?
    requires GasMultiplier * node.gasEstimate.value * GasPrice + value <= node.balance.value
    ensures node.broadcast.Failure? ==>
              SendTransaction(node, from, sign, to, data, value).outcome
              == Failure(BroadcastFailed(node.broadcast.error))
    ensures node.broadcast.Success? && ConfirmedByPoller(node.receipts, node.broadcast.value, receipt) ==>
              SendTransaction(node, from, sign, to, data, value).outcome == Success(receipt)
  {
    var tx := RawTransaction(from, GasPrice, GasMultiplier * node.gasEstimate.value,
                             node.transactionCount.value, data, to, value, ChainId);
    if node.broadcast.Success? && ConfirmedByPoller(node.receipts, node.broadcast.value, receipt) {
      ConfirmingAnswerResolves(node, tx, sign, receipt);
    }
  }

  /**
   * Whatever the node answers, the only transaction a run signs is the one
   * built from this run's reads, affordable with the balance read, and what
   * it broadcasts is that transaction's signature, right after signing it.
   */
  lemma OnlyAuthorizedIsSigned(node: Node, from: string, sign: RawTransaction -> string,
                               to: string, data: string, value: nat)
    ensures var run := SendTransaction(node, from, sign, to, data, value);
            forall i :: 0 <= i < |run.effects| && run.effects[i].Sign? ==>
              Authorized(run.effects[i].tx, node, from, to, data, value)
    ensures var run := SendTransaction(node, from, sign, to, data, value);
            forall i :: 0 <= i < |run.effects| && run.effects[i].SendSignedTransaction? ==>
              1 <= i && run.effects[i - 1].Sign? && run.effects[i].signed == sign(run.effects[i - 1].tx)
  {
  }

  /**
   * The cost/balance refusal happens exactly when the three reads succeed
   * and the balance is below the cost, and then nothing is signed or sent.
   */
  lemma RefusedIffUnaffordable(node: Node, from: string, sign: RawTransaction -> string,
                               to: string, data: string, value: nat)
    ensures var run := SendTransaction(node, from, sign, to, data, value);
            (run.outcome.Failure? && run.outcome.error.Budget?)
            <==> (&& node.transactionCount.Success? && node.gasEstimate.Success? && node.balance.Success?
                  && node.balance.value < GasMultiplier * node.gasEstimate.value * GasPrice + value)
    ensures var run := SendTransaction(node, from, sign, to, data, value);
            run.outcome.Failure? && run.outcome.error.Budget? ==>
              forall e :: e in run.effects ==> !e.Sign? && !e.SendSignedTransaction?
  {
  }

  /** A run signs at most once, broadcasts at most once, and consumes at most 31 receipt answers. */
  lemma AtMostOneBroadcast(node: Node, from: string, sign: RawTransaction -> string,
                                              to: string, data: string, value: nat)
    ensures var run := SendTransaction(node, from, sign, to, data, value);
            && |run.effects| <= 5 + DefaultTries + 1
            && (forall i, j :: 0 <= i < j < |run.effects| ==>
                  !(run.effects[i].Sign? && run.effects[j].Sign?))
            && (forall i, j :: 0 <= i < j < |run.effects| ==>
                  !(run.effects[i].SendSignedTransaction? && run.effects[j].SendSignedTransaction?))
  {
  }

  /**
   * A 21000-gas call at nonce 5 from an account holding one ether, whose
   * receipt arrives in the third answer, signs one transaction and resolves.
   */
  lemma ExampleEndToEnd(from: string, sign: RawTransaction -> string, to: string, data: string, hash: string)
    ensures var receipt := Receipt(hash, Some(100), true);
            var node := Node(Success(5), Success(21000), Success(1_000_000_000_000_000_000),
                             Success(hash), [NoReceipt, NoReceipt, Found(receipt)]);
            var tx := RawTransaction(from, GasPrice, 42000, 5, data, to, 0, ChainId);
            SendTransaction(node, from, sign, to, data)
            == Run(Success(receipt), Reads(from, data, to) + [Sign(tx), SendSignedTransaction(sign(tx))]
                                     + Polls(hash, 3))
  {
    ExampleConfirmedOnThirdPoll(hash);
  }
}

=== FILE: wrappers.dfy ===
/** The optional values and results shared by every module of the model. */
module Wrappers {

  /** A value that may be absent (JavaScript's `undefined`/`null` slots). */
  datatype Option<+T> = None | Some(value: T)

  /** The outcome of an operation that either returns a value or throws. */
  datatype Result<+R, +E> = Success(value: R) | Failure(error: E)
}
